=== FILE: README.md ===
# honestymatter — verified model of the decision logic

honestymatter is a Streamlit page. It photographs a packaged product, asks a
vision model for an integrity score, and shows a traffic-light verdict. Almost
all of `app.py` is page layout, CSS and the model call. This project models the
small deterministic procedures inside it and proves properties about them:

- **Response extractor** (`parse_ai_response`), in module `Extraction` with the
  string primitives in `Text`. It strips the model's reply, then builds up to four
  candidates in a fixed order:
  - the body of the first ```` ```json ```` fence;
  - the body of the first ```` ``` ```` fence;
  - the greedy span from the first `{` to the last `}`;
  - the whole stripped reply.

  It returns the decoding of the first candidate the JSON decoder accepts. The
  three regular expressions are written as explicit searches. Each search is
  proved to return the match Python's backtracking engine prefers among all ways
  the pattern can match. `json.loads` is a parameter `decode: string -> Option<Json>`.
- **Score banding** (`get_score_color`) in `Score`. It maps an integer score to
  its band (green, orange or red). The module also models how the results page
  reads `score` from the decoded result.
- **Alternative normalisation** (the top of `render_alternative`) in `Alternative`.
  It turns a bare string or a record into the three display fields. It also models
  the rule for when the estimated-score badge is shown.
- **Capture session** (the `captured_images` / `capture_step` session state) in
  `Session`. It is a state machine driven by taking a photo, "Clear & Retake", and
  a finished scan. Uploads are cut to their first three files.
- **Location record** (`get_user_location`) in `Location`. The HTTP reply is a
  parameter. The module covers the fields read from the reply, the
  "city, country" label and the fixed fallback record.

`Wrappers` holds `Option` and `Result`. `JsonValue` holds the decoded JSON value,
with Python truthiness and `dict.get`.

Where the code and its own docstring disagree, the model follows the code. The
docstring says `parse_ai_response` returns a parsed dict, but the code returns
whatever JSON value `json.loads` produces: a list, a string or a number as well.
The model's success value is any `Json`. When no candidate decodes, the code
raises `ValueError`, and its message ends with the stripped reply. The model
returns `Failure(stripped reply)`. The results page reports this as a parsing
error and does not clear the session.

## Model

| member | source | states |
|---|---|---|
| Text.Strip | app.py:568 | `str.strip()` with Python's Unicode whitespace: the result is no longer than the input, is empty exactly when the input is all whitespace, and otherwise starts and ends with non-whitespace |
| Text.StripIsUnique | app.py:568 | any cut of a string into whitespace, a middle with non-whitespace ends, and whitespace has `Strip` as its middle, so `Strip` is determined by that shape |
| Extraction.SearchFence | app.py:572-578 | the match found for `<opener>\s*(.*?)\s*```` is a real match of the pattern, and its capture group starts and ends with non-whitespace when non-empty |
| Extraction.SearchFenceIsRegexSearch | app.py:572-578 | a fence is found exactly when the pattern can match somewhere, and the match found precedes every other match by leftmost start, longer first `\s*`, shorter lazy group, then longer second `\s*` |
| Extraction.FenceBodyIsStrippedSegment | app.py:572-581 | capture group 1 is the `strip()` of the text between the opener and the first closing fence |
| Extraction.FenceHoldsNoCloser | app.py:572-578 | no closing fence starts between the opener and the close of the match: the lazy group stops at the first one |
| Extraction.SearchBraces | app.py:574-578 | the brace match runs from the first `{` to the last `}`, and there is none exactly when no `}` follows any `{` |
| Extraction.SearchBracesIsRegexSearch | app.py:574-578 | a brace match exists exactly when `\{.*\}` can match, and the one found has the leftmost start and the longest span |
| Extraction.FenceBody | app.py:581 | a fence pattern's candidate, `match.group(1)`, exists exactly when the pattern matched and neither starts nor ends with whitespace |
| Extraction.BraceBody | app.py:581 | the brace pattern's candidate, `match.group(0)`, exists exactly when the pattern matched and runs from a `{` to a `}` |
| Extraction.Candidate | app.py:577-581 | each pattern yields a candidate exactly when its search matches; fence candidates have no surrounding whitespace, brace candidates start with `{` and end with `}`; the value of a fence candidate is pinned for every reply by `Extraction.FenceCandidateIsStrippedSegment` |
| Extraction.FenceCandidate | app.py:577-581 | a fence pattern yields a candidate exactly when its search matches, and that candidate has no surrounding whitespace; its value is given by `Extraction.FenceCandidateIsStrippedSegment` |
| Extraction.FenceCandidateIsStrippedSegment | app.py:572-581 | for every reply on which a fence pattern matches, its candidate is the `strip()` of the text between the opener and the first closing fence after it |
| Extraction.BraceCandidate | app.py:577-581 | the brace pattern yields a candidate exactly when its search matches, and that candidate starts with `{` and ends with `}` |
| Extraction.PatternCandidates | app.py:577-581 | the first `n` patterns yield at most `n` candidates, and none exactly when none of those patterns matches |
| Extraction.Candidates | app.py:571-588 | there are between one and four candidates, and the last one tried is always the whole stripped reply |
| Extraction.CandidatesInOrder | app.py:571-588 | the candidates are the `json` fence body, the generic fence body and the brace span, each only if its pattern matches, then the whole text |
| Extraction.PatternCandidatesArePrefix | app.py:577-588 | the pattern candidates are tried before the whole text |
| Extraction.FirstDecodedIsFirst | app.py:577-590 | the front-to-back reference search yields the decoding of a candidate that every earlier candidate failed to decode, and yields nothing exactly when all candidates fail |
| Extraction.FirstDecodedAtIsUnique | app.py:577-590 | the first decoded candidate and its value are unique, so the extractor's result is determined |
| Extraction.LaterCandidatesIgnored | app.py:577-584 | replacing every candidate after the first decoded one leaves that candidate first and its value unchanged |
| Extraction.FirstDecoding | app.py:577-590 | the candidate loop returns the decoding of the first candidate the decoder accepts, together with that candidate's position, agrees with the reference search, and returns nothing exactly when every candidate is rejected |
| Extraction.ParseAiResponse | app.py:562-590 | success is the first decodable candidate of the stripped reply, whatever JSON value it is; failure happens exactly when no candidate decodes and carries the stripped reply |
| Extraction.GenericFenceSeesLabel | app.py:572-584 | when the `json` fence is the first fence, the generic pattern matches the same fence with `json` and the labelled body as its capture, so a rejected labelled body is retried with `json` in front |
| Extraction.FenceRoundTrip | app.py:572-581 | for prose without backticks, then a `json` or plain fence around a trimmed, backtick-free body with any whitespace, then anything, that fence's candidate is exactly the body |
| Extraction.BraceRoundTrip | app.py:574-581 | for prose without `{`, then a `{...}` text, then prose without `}`, the brace candidate is the whole object however it nests |
| Score.GetScoreColor | app.py:474-481 | in 0-100 the band is the one the rubric's threshold table assigns; above 100 it is green and below 0 red, with no clamping |
| Score.RubricIsAFunction | app.py:389-392 | the rubric assigns each score in 0-100 exactly one band, and it is the band `get_score_color` returns |
| Score.GetScoreColorIsMonotone | app.py:474-481 | a higher score never gets a more deceptive band |
| Score.ResultBand | app.py:895-898 | a missing `score` reads as 0 (red); a boolean, integer or float score gets its band by value; any other value has no band |
| Wrappers.Get | app.py:896 | `dict.get` returns the stored value when the key is present, even a null one, and the default only when it is absent |
| JsonValue.NumericValue | app.py:474-481 | a JSON value compares with the int thresholds exactly when it is a boolean, integer or float, booleans as 0 and 1 |
| JsonValue.Truthy | app.py:537 | a value is falsy exactly when it is None, False, 0, 0.0, an empty string, an empty list or an empty dict |
| Alternative.Normalize | app.py:527-534 | a string becomes (itself, "", None); a record becomes its three fields with defaults 'No alternative found', '' and None; any other value is an error |
| Alternative.NormalizeRecordRoundTrip | app.py:527-534 | normalising the complete record built from a suggestion gives back that suggestion |
| Alternative.StringIsNameOnlyRecord | app.py:527-534 | a bare string is read the same way as a record holding only `product_name` |
| Alternative.NoBadgeWithoutEstimate | app.py:536-537 | no score badge is shown for a string suggestion, or for a record whose estimate is missing, null or zero |
| Alternative.SuggestionOf | app.py:946-949 | a missing `better_alternative` is the string 'No alternative suggested' with no explanation and no score |
| Alternative.MissingAlternativeIsDefaultText | app.py:946-949 | a result without `better_alternative` is rendered exactly like one whose `better_alternative` is the string 'No alternative suggested' |
| Session.FirstThree | app.py:836 | uploads are cut to a prefix of the list whose length is the smaller of three and the number of uploads |
| Session.FirstThreeIsIdempotent | app.py:836 | cutting an already cut upload list changes nothing |
| Session.ProductImages | app.py:822-836 | in camera mode the scan analyses exactly the captured photos; in upload mode the first three uploads (all of them when there are at most three); in a valid session never more than three images |
| Session.Offered | app.py:851-861 | the scan runs exactly when the chosen mode has at least one image: a captured photo, or at least one upload |
| Session.Next | app.py:756-873 | a photo can be added only below three and is appended; clearing and a scan that returned reset the session to ([], 1); a scan that raised changes nothing; a scan needs at least one image; validity is preserved |
| Session.RunPreservesValid | app.py:756-873 | any sequence of interactions from a valid session ends in a valid session, where the step is the count plus one and the count is at most three |
| Session.ReachableSessionsAreValid | app.py:756-873 | every session reachable from the initial state is valid, and every photo it holds was taken by one of the events |
| Session.RunHoldsTakenPhotos | app.py:785-873 | after any interactions, a held photo was either held before or appended by a photo event: clearing and scans add nothing |
| Session.ThreePhotosFillTheSession | app.py:791-811 | three photos taken in a row are held in order with step 4, and a fourth photo is not offered |
| Location.FullLocation | app.py:313 | with a city the label is the city, ", " and the country; without one it is the country |
| Location.FullLocationIsCountryIff | app.py:313 | the label is the bare country name exactly when the city is empty |
| Location.GetUserLocation | app.py:300-322 | a 200 reply with a readable body yields its country code, country name and city, with defaults; any failure yields the fixed fallback; the label is always consistent with the city and country |
| Location.EmptyReplyIsFallback | app.py:306-322 | a successful reply with no fields yields exactly the fallback record |

## Left out

- Page layout, HTML/CSS and markup are not modelled. They are presentation only. This covers `render_score_card`, the deductions table, the result page's other fields and the emoji and status strings beyond their values in `Score.Band`.
- `analyze_product` and the call to the vision model are not modelled. They are a foreign network API, and the function's body is mis-indented, so it has no coherent behaviour to state.
- The prompt text and its `str.format` templating are not modelled. They are constant prose, and the score is computed by the external model.
- Extraction.ParseAiResponse: the decoder is a partial function, so every decoder failure means "try the next candidate". The source catches only `json.JSONDecodeError` (app.py:583, 589); any other exception from `json.loads`, such as a `RecursionError` on very deeply nested input, escapes the search at once. That behaviour is not modelled.
- The internals of `json.loads` are not modelled. The decoder is a parameter, so every property holds for any decoder. The decoder's error-message text, which the source puts into the `ValueError`, is not part of `Failure`.
- The HTTP request in `get_user_location` and its bare `except` are not modelled. Both are I/O, so the reply or its absence is a parameter.
- Location.GetUserLocation: the reply body is modelled as a map of strings. A JSON `null` or a number stored under `city` or `country_name` is left out.
- Score.ResultBand: it is the band of the `score` field alone. The page code that runs before the score card is left out, and that code can raise first: a present non-string `product_type`, for example, fails at `.upper()` (app.py:886), and the page then shows an analysis error instead of the band. A decoded result that is not a JSON object is left out. So are NaN and infinite floats, which the decoder model does not produce.
- Session.Next: "Clear & Retake" and a new photo exist only in the take-photos mode. Events carry no mode, so the model only requires the widget's enabling condition. The "Skip" button is a no-op and is left out.
- The list of regions, the pandas table and PIL image handling are not modelled. They are constant data and foreign library behaviour.

=== FILE: alternative.dfy ===
/**
 * The normalisation at the top of `render_alternative` (app.py): the model's
 * `better_alternative` is either a bare string or a record, and both become the
 * same three display fields.
 */
module Alternative {
  import opened Wrappers
  import opened JsonValue

  /** Default the results page passes when the decoded result has no `better_alternative`. */
  const NoAlternativeSuggested: string := "No alternative suggested"

  /** Default for a record without `product_name`. */
  const NoAlternativeFound: string := "No alternative found"

  /** The display fields; `estimatedScore` is `JNull` where the source holds `None`. */
  datatype Suggestion = Suggestion(productName: Json, whyMoreHonest: Json, estimatedScore: Json)

  /**
   * `render_alternative`'s two branches: a string is the product name with an
   * empty explanation and no score; a record supplies the three keys, each with
   * its default. Any other value has no `.get`, and the AttributeError surfaces
   * as an analysis error.
   */
  function Normalize(data: Json): (r: Result<Suggestion, string>)
    ensures r.Success? <==> data.JStr? || data.JObj?
    ensures data.JStr? ==> r == Success(Suggestion(data, JStr(""), JNull))
    ensures data.JObj? ==> var f := data.fields;
      && r.Success?
      && r.value.productName == (if "product_name" in f then f["product_name"] else JStr(NoAlternativeFound))
      && r.value.whyMoreHonest == (if "why_more_honest" in f then f["why_more_honest"] else JStr(""))
      && r.value.estimatedScore == (if "estimated_score" in f then f["estimated_score"] else JNull)
  {
    match data
    case JStr(_) => Success(Suggestion(data, JStr(""), JNull))
    case JObj(f) =>
      Success(Suggestion(
        Get(f, "product_name", JStr(NoAlternativeFound)),
        Get(f, "why_more_honest", JStr("")),
        Get(f, "estimated_score", JNull)))
    case _ => Failure("AttributeError: no attribute 'get'")
  }

  /** The record the prompt asks the model to emit for a suggestion. */
  function AsRecord(s: Suggestion): Json {
    JObj(map["product_name" := s.productName, "why_more_honest" := s.whyMoreHonest, "estimated_score" := s.estimatedScore])
  }

  /** Normalising the full record gives back exactly the fields it was built from. */
  lemma NormalizeRecordRoundTrip(s: Suggestion)
    ensures Normalize(AsRecord(s)) == Success(s)
  {
  }

  /** A bare string is read exactly as a record holding only `product_name`. */
  lemma StringIsNameOnlyRecord(name: string)
    ensures Normalize(JStr(name)) == Normalize(JObj(map["product_name" := JStr(name)]))
  {
  }

  /** The estimated-score badge is rendered only for a truthy estimate. */
  predicate ShowsScoreBadge(s: Suggestion) {
    Truthy(s.estimatedScore)
  }

  /**
   * No badge for a string suggestion, nor for a record whose estimate is
   * missing, null or zero.
   */
  lemma NoBadgeWithoutEstimate(data: Json)
    requires Normalize(data).Success?
    requires data.JObj? ==>
      "estimated_score" !in data.fields || data.fields["estimated_score"] in {JNull, JInt(0), JFloat(0.0)}
    ensures !ShowsScoreBadge(Normalize(data).value)
  {
  }

  /**
   * What `render_alternative` receives for a decoded result:
   * `result.get('better_alternative', 'No alternative suggested')`, normalised.
   */
  function SuggestionOf(result: map<string, Json>): (r: Result<Suggestion, string>)
    ensures "better_alternative" !in result ==>
      r == Success(Suggestion(JStr(NoAlternativeSuggested), JStr(""), JNull))
    ensures "better_alternative" in result ==> r == Normalize(result["better_alternative"])
  {
    Normalize(Get(result, "better_alternative", JStr(NoAlternativeSuggested)))
  }

  /** A result without `better_alternative` reads like one that suggests the default text. */
  lemma {:induction false} MissingAlternativeIsDefaultText(result: map<string, Json>)
    ensures SuggestionOf(result - {"better_alternative"})
      == SuggestionOf(result["better_alternative" := JStr(NoAlternativeSuggested)])
  {
  }
}

=== FILE: extraction.dfy ===
/**
 * The response extractor `parse_ai_response` (app.py): it strips the model's
 * reply and tries, in a fixed order, the bodies of a ```` ```json ```` fence and of
 * any ```` ``` ```` fence, then the greedy `{ ... }` span, then the whole reply,
 * returning the decoding of the first candidate the JSON decoder accepts.
 *
 * The three regular expressions are written out as explicit searches. Each search
 * is proved to return the match Python's backtracking engine reports: among all
 * ways the pattern can match, the one with the leftmost start, then the longest
 * greedy `\s*`, the shortest lazy `.*?`, and the longest greedy tail.
 */
module Extraction {
  import opened Wrappers
  import opened JsonValue
  import opened Text

  /** The fence marker, also the closing delimiter of both fence patterns. */
  const Backticks: string := "```"

  /** The opening delimiter of the labelled pattern ```` ```json\s*(.*?)\s*``` ````. */
  const JsonOpener: string := "```json"

  /*---------------------------------------------------------------------------
   * Fence patterns: `<opener>\s*(.*?)\s*```` with `re.DOTALL`
   *---------------------------------------------------------------------------*/

  /**
   * A way for `<opener>\s*(.*?)\s*```` to match: the opener at `start`, the
   * first `\s*` up to `bodyStart`, capture group 1 as `[bodyStart, bodyEnd)`,
   * the second `\s*` up to `close`, and the closing backticks at `close`.
   */
  datatype FenceMatch = FenceMatch(start: nat, bodyStart: nat, bodyEnd: nat, close: nat)

  ghost predicate IsFenceMatch(t: string, opener: string, m: FenceMatch) {
    && m.start + |opener| <= m.bodyStart <= m.bodyEnd <= m.close
    && OccursAt(t, opener, m.start)
    && SpaceBetween(t, m.start + |opener|, m.bodyStart)
    && SpaceBetween(t, m.bodyEnd, m.close)
    && OccursAt(t, Backticks, m.close)
  }

  /**
   * The backtracking engine's preference between two matches: leftmost start,
   * then the longer greedy `\s*`, then the shorter lazy `(.*?)`, then the longer
   * greedy `\s*`.
   */
  ghost predicate FencePrecedes(m: FenceMatch, n: FenceMatch) {
    || m.start < n.start
    || (m.start == n.start && m.bodyStart > n.bodyStart)
    || (m.start == n.start && m.bodyStart == n.bodyStart && m.bodyEnd < n.bodyEnd)
    || (m.start == n.start && m.bodyStart == n.bodyStart && m.bodyEnd == n.bodyEnd && m.close >= n.close)
  }

  /**
   * `re.search(opener + r'\s*(.*?)\s*```', t, re.DOTALL)`: the first opener,
   * the first closing fence after it, and the text between them without its
   * surrounding whitespace.
   */
  function SearchFence(t: string, opener: string): (r: Option<FenceMatch>)
    ensures r.Some? ==> IsFenceMatch(t, opener, r.value)
    ensures r.Some? && r.value.bodyStart < r.value.bodyEnd ==>
      !IsSpace(t[r.value.bodyStart]) && !IsSpace(t[r.value.bodyEnd - 1])
  {
    match Find(t, opener, 0)
    case None => None
    case Some(i) =>
      match Find(t, Backticks, i + |opener|)
      case None => None
      case Some(c) =>
        var j := SkipSpaces(t, i + |opener|, c);
        Some(FenceMatch(i, j, TrimBack(t, j, c), c))
  }

  lemma {:induction false} BackticksStartWithBacktick(t: string, c: int)
    requires OccursAt(t, Backticks, c)
    ensures c < |t| && t[c] == '`' && !IsSpace(t[c])
  {
    assert t[c..c + 3][0] == t[c];
  }

  /**
   * `SearchFence` finds a match exactly when the pattern can match somewhere,
   * and the match it finds is the one Python's engine prefers over every other.
   */
  lemma {:induction false} SearchFenceIsRegexSearch(t: string, opener: string)
    ensures SearchFence(t, opener).None? <==> forall m :: !IsFenceMatch(t, opener, m)
    ensures SearchFence(t, opener).Some? ==>
      forall m :: IsFenceMatch(t, opener, m) ==> FencePrecedes(SearchFence(t, opener).value, m)
  {
    match Find(t, opener, 0)
    case None =>
    case Some(i) =>
      match Find(t, Backticks, i + |opener|)
      case None =>
        forall m | IsFenceMatch(t, opener, m) ensures false {
        }
      case Some(c) =>
        var r := SearchFence(t, opener).value;
        BackticksStartWithBacktick(t, c);
        forall m | IsFenceMatch(t, opener, m) ensures FencePrecedes(r, m) {
          assert i <= m.start;
          if m.start == i {
            assert c <= m.close;
            // The first `\s*` cannot run past the first non-space character.
            if r.bodyStart < m.bodyStart {
              assert false;
            }
            if r.bodyStart == m.bodyStart {
              // The lazy group stops at the first closing fence.
              if m.bodyEnd < r.bodyEnd {
                assert false;
              }
              if m.bodyEnd == r.bodyEnd && c < m.close {
                assert false;
              }
            }
          }
        }
  }

  /**
   * Capture group 1 of a fence match is Python's `strip()` of the text between
   * the opener and the first closing fence after it.
   */
  lemma {:induction false} FenceBodyIsStrippedSegment(t: string, opener: string, m: FenceMatch)
    requires SearchFence(t, opener) == Some(m)
    ensures m.start + |opener| <= m.close <= |t|
    ensures t[m.bodyStart..m.bodyEnd] == Strip(t[m.start + |opener|..m.close])
  {
    MatchBodyIsStripped(t, opener, m);
  }

  lemma {:induction false} MatchBodyIsStripped(t: string, opener: string, m: FenceMatch)
    requires IsFenceMatch(t, opener, m)
    requires m.bodyStart < m.bodyEnd ==> !IsSpace(t[m.bodyStart]) && !IsSpace(t[m.bodyEnd - 1])
    ensures t[m.bodyStart..m.bodyEnd] == Strip(t[m.start + |opener|..m.close])
  {
    BackticksStartWithBacktick(t, m.close);
    StripOfSlice(t, m.start + |opener|, m.bodyStart, m.bodyEnd, m.close);
  }

  /** The text between the opener and the closing fence of a fence match holds no fence marker. */
  lemma {:induction false} FenceHoldsNoCloser(t: string, opener: string)
    requires SearchFence(t, opener).Some?
    ensures var m := SearchFence(t, opener).value;
      forall x :: m.start + |opener| <= x < m.close ==> !OccursAt(t, Backticks, x)
  {
    SearchFenceShape(t, opener);
  }

  /*---------------------------------------------------------------------------
   * Brace pattern: `\{.*\}` with `re.DOTALL`
   *---------------------------------------------------------------------------*/

  /** A way for `\{.*\}` to match: `{` at `open`, `}` at `close`; the match is `t[open..close + 1]`. */
  datatype BraceMatch = BraceMatch(open: nat, close: nat)

  ghost predicate IsBraceMatch(t: string, m: BraceMatch) {
    m.open < m.close < |t| && t[m.open] == '{' && t[m.close] == '}'
  }

  /** Leftmost start first, then the longer greedy `.*`. */
  ghost predicate BracePrecedes(m: BraceMatch, n: BraceMatch) {
    m.open < n.open || (m.open == n.open && m.close >= n.close)
  }

  /**
   * `re.search(r'\{.*\}', t, re.DOTALL)`: from the first `{` to the last `}`,
   * present only when that `}` lies after that `{`.
   */
  function SearchBraces(t: string): (r: Option<BraceMatch>)
    ensures r.Some? ==> IsBraceMatch(t, r.value)
    ensures r.Some? ==> forall x :: 0 <= x < r.value.open ==> t[x] != '{'
    ensures r.Some? ==> forall x :: r.value.close < x < |t| ==> t[x] != '}'
    ensures r.None? <==> forall i, e :: 0 <= i < e < |t| && t[i] == '{' ==> t[e] != '}'
  {
    match IndexOf(t, '{', 0)
    case None => None
    case Some(i) =>
      match LastIndexOf(t, '}', |t|)
      case None => None
      case Some(e) => if i < e then Some(BraceMatch(i, e)) else None
  }

  /** `SearchBraces` returns the match Python's engine prefers over every other. */
  lemma {:induction false} SearchBracesIsRegexSearch(t: string)
    ensures SearchBraces(t).None? <==> forall m :: !IsBraceMatch(t, m)
    ensures SearchBraces(t).Some? ==>
      forall m :: IsBraceMatch(t, m) ==> BracePrecedes(SearchBraces(t).value, m)
  {
    if SearchBraces(t).None? {
      forall m | IsBraceMatch(t, m) ensures false {
      }
    }
  }

  /*---------------------------------------------------------------------------
   * Candidates and the extractor
   *---------------------------------------------------------------------------*/

  /** The three patterns of `json_patterns`, in list order. */
  datatype Pattern = JsonFence | AnyFence | BraceSpan

  const Patterns: seq<Pattern> := [JsonFence, AnyFence, BraceSpan]

  /**
   * The text a pattern hands to the decoder: capture group 1 for the two fence
   * patterns (whose source contains backticks), the whole match for the brace
   * pattern.
   */
  function Candidate(t: string, p: Pattern): (r: Option<string>)
    ensures p == JsonFence ==> (r.Some? <==> SearchFence(t, JsonOpener).Some?)
    ensures p == AnyFence ==> (r.Some? <==> SearchFence(t, Backticks).Some?)
    ensures p == BraceSpan ==> (r.Some? <==> SearchBraces(t).Some?)
    ensures p != BraceSpan && r.Some? && r.value != [] ==>
      !IsSpace(r.value[0]) && !IsSpace(r.value[|r.value| - 1])
    ensures p == BraceSpan && r.Some? ==>
      |r.value| >= 2 && r.value[0] == '{' && r.value[|r.value| - 1] == '}'
  {
    match p
    case JsonFence => FenceCandidate(t, JsonOpener)
    case AnyFence => FenceCandidate(t, Backticks)
    case BraceSpan => BraceCandidate(t)
  }

  /** The candidate of a fence pattern with the given opener. */
  function FenceCandidate(t: string, opener: string): (r: Option<string>)
    ensures r.Some? <==> SearchFence(t, opener).Some?
    ensures r.Some? && r.value != [] ==> !IsSpace(r.value[0]) && !IsSpace(r.value[|r.value| - 1])
  {
    FenceBody(t, SearchFence(t, opener))
  }

  /**
   * The value of a fence candidate, for every reply: when the pattern matches,
   * the candidate is the `strip()` of the text between the opener and the first
   * closing fence after it.
   */
  lemma {:induction false} FenceCandidateIsStrippedSegment(t: string, opener: string)
    ensures SearchFence(t, opener).Some? ==>
      var m := SearchFence(t, opener).value;
      && m.start + |opener| <= m.close <= |t|
      && FenceCandidate(t, opener) == Some(Strip(t[m.start + |opener|..m.close]))
  {
    if SearchFence(t, opener).Some? {
      FenceBodyIsStrippedSegment(t, opener, SearchFence(t, opener).value);
    }
  }

  /** The candidate of the brace pattern. */
  function BraceCandidate(t: string): (r: Option<string>)
    ensures r.Some? <==> SearchBraces(t).Some?
    ensures r.Some? ==> |r.value| >= 2 && r.value[0] == '{' && r.value[|r.value| - 1] == '}'
  {
    BraceBody(t, SearchBraces(t))
  }

  /** `match.group(1)` of a fence match: the capture, which neither starts nor ends with whitespace. */
  function FenceBody(t: string, m: Option<FenceMatch>): (r: Option<string>)
    requires m.Some? ==> m.value.bodyStart <= m.value.bodyEnd <= |t|
    requires m.Some? && m.value.bodyStart < m.value.bodyEnd ==>
      !IsSpace(t[m.value.bodyStart]) && !IsSpace(t[m.value.bodyEnd - 1])
    ensures r.Some? <==> m.Some?
    ensures r.Some? && r.value != [] ==> !IsSpace(r.value[0]) && !IsSpace(r.value[|r.value| - 1])
  {
    match m
    case None => None
    case Some(f) => Some(t[f.bodyStart..f.bodyEnd])
  }

  /** `match.group(0)` of a brace match: the whole span, from `{` to `}`. */
  function BraceBody(t: string, m: Option<BraceMatch>): (r: Option<string>)
    requires m.Some? ==> IsBraceMatch(t, m.value)
    ensures r.Some? <==> m.Some?
    ensures r.Some? ==> |r.value| >= 2 && r.value[0] == '{' && r.value[|r.value| - 1] == '}'
  {
    match m
    case None => None
    case Some(b) => Some(t[b.open..b.close + 1])
  }

  function Present(o: Option<string>): seq<string> {
    if o.Some? then [o.value] else []
  }

  /** The candidates of the first `n` patterns, in list order. */
  function PatternCandidates(t: string, n: nat): (cs: seq<string>)
    requires n <= |Patterns|
    ensures |cs| <= n
    ensures cs == [] <==> forall i :: 0 <= i < n ==> Candidate(t, Patterns[i]).None?
  {
    if n == 0 then []
    else PatternCandidates(t, n - 1) + Present(Candidate(t, Patterns[n - 1]))
  }

  /**
   * Every candidate the extractor tries, in the order it tries them: one string
   * per pattern that matches, then the whole text.
   */
  function Candidates(t: string): (cs: seq<string>)
    ensures 1 <= |cs| <= |Patterns| + 1 && cs[|cs| - 1] == t
  {
    PatternCandidates(t, |Patterns|) + [t]
  }

  /** The candidates of the first `n` patterns are the first candidates tried. */
  lemma {:induction false} PatternCandidatesArePrefix(t: string, n: nat)
    requires n <= |Patterns|
    ensures PatternCandidates(t, n) <= Candidates(t)
    decreases |Patterns| - n
  {
    if n < |Patterns| {
      PatternCandidatesArePrefix(t, n + 1);
      assert PatternCandidates(t, n) <= PatternCandidates(t, n + 1);
    }
  }

  /**
   * The fixed order: the ```` ```json ```` fence body, the generic fence body,
   * the brace span (each only when its pattern matches), and the whole text.
   */
  lemma {:induction false} CandidatesInOrder(t: string)
    ensures Candidates(t) ==
      Present(Candidate(t, JsonFence)) + Present(Candidate(t, AnyFence))
      + Present(Candidate(t, BraceSpan)) + [t]
  {
    assert PatternCandidates(t, 1) == Present(Candidate(t, JsonFence));
    assert PatternCandidates(t, 2) == Present(Candidate(t, JsonFence)) + Present(Candidate(t, AnyFence));
  }

  /**
   * Candidate `k` is the first of `cs` that `decode` accepts, and it decodes to `v`.
   */
  ghost predicate FirstDecodedAt(cs: seq<string>, decode: string -> Option<Json>, k: int, v: Json) {
    && 0 <= k < |cs|
    && decode(cs[k]) == Some(v)
    && forall j :: 0 <= j < k ==> decode(cs[j]).None?
  }

  /** Reference definition: try the candidates from the front, stopping at the first decoding. */
  function FirstDecoded(cs: seq<string>, decode: string -> Option<Json>): Option<Json>
    decreases |cs|
  {
    if cs == [] then None
    else if decode(cs[0]).Some? then decode(cs[0])
    else FirstDecoded(cs[1..], decode)
  }

  /** The reference definition finds exactly the first accepted candidate, and fails only when every one is rejected. */
  lemma {:induction false} FirstDecodedIsFirst(cs: seq<string>, decode: string -> Option<Json>)
    ensures FirstDecoded(cs, decode).Some? ==> exists k :: FirstDecodedAt(cs, decode, k, FirstDecoded(cs, decode).value)
    ensures FirstDecoded(cs, decode).None? <==> forall k :: 0 <= k < |cs| ==> decode(cs[k]).None?
    decreases |cs|
  {
    if cs != [] && decode(cs[0]).Some? {
      assert FirstDecodedAt(cs, decode, 0, decode(cs[0]).value);
    } else if cs != [] {
      var rest := cs[1..];
      FirstDecodedIsFirst(rest, decode);
      if FirstDecoded(rest, decode).Some? {
        var k :| FirstDecodedAt(rest, decode, k, FirstDecoded(rest, decode).value);
        assert FirstDecodedAt(cs, decode, k + 1, FirstDecoded(cs, decode).value);
      } else {
        forall k | 0 <= k < |cs| ensures decode(cs[k]).None? {
          if k > 0 { assert cs[k] == rest[k - 1]; }
        }
      }
    }
  }

  /** At most one candidate is the first one decoded, so the result is determined. */
  lemma {:induction false} FirstDecodedAtIsUnique(cs: seq<string>, decode: string -> Option<Json>, k1: int, v1: Json, k2: int, v2: Json)
    requires FirstDecodedAt(cs, decode, k1, v1) && FirstDecodedAt(cs, decode, k2, v2)
    ensures k1 == k2 && v1 == v2
  {
  }

  /** Candidates after the first decoded one are never consulted: replacing them changes nothing. */
  lemma {:induction false} LaterCandidatesIgnored(cs: seq<string>, rest: seq<string>, decode: string -> Option<Json>, k: int, v: Json)
    requires FirstDecodedAt(cs, decode, k, v)
    ensures FirstDecodedAt(cs[..k + 1] + rest, decode, k, v)
  {
    var cs' := cs[..k + 1] + rest;
    forall j | 0 <= j <= k ensures cs'[j] == cs[j] {
    }
  }

  /**
   * The `for pattern in json_patterns` loop together with the final attempt on
   * the whole text: the decoding of the first candidate `decode` accepts, or
   * `None` when it accepts none of them; `at` is the index of the candidate used.
   */
  method FirstDecoding(cs: seq<string>, decode: string -> Option<Json>) returns (r: Option<Json>, at: int)
    ensures r.Some? ==> FirstDecodedAt(cs, decode, at, r.value)
    ensures r.None? <==> forall k :: 0 <= k < |cs| ==> decode(cs[k]).None?
    ensures r == FirstDecoded(cs, decode)
  {
    FirstDecodedIsFirst(cs, decode);
    ghost var ref := FirstDecoded(cs, decode);
    for k := 0 to |cs|
      invariant forall j :: 0 <= j < k ==> decode(cs[j]).None?
    {
      var d := decode(cs[k]);
      if d.Some? {
        assert FirstDecodedAt(cs, decode, k, d.value);
        if ref.Some? {
          var k' :| FirstDecodedAt(cs, decode, k', ref.value);
          FirstDecodedAtIsUnique(cs, decode, k, d.value, k', ref.value);
        }
        return d, k;
      }
    }
    return None, |cs|;
  }

  /**
   * `parse_ai_response`: strips the reply, returns the decoding of the first
   * candidate that decodes, and otherwise fails with the stripped reply (the
   * source raises `ValueError` carrying it).
   */
  method ParseAiResponse(responseText: string, decode: string -> Option<Json>) returns (r: Result<Json, string>)
    ensures r.Success? ==>
      exists k :: FirstDecodedAt(Candidates(Strip(responseText)), decode, k, r.value)
    ensures var cs := Candidates(Strip(responseText));
      r.Failure? <==> forall k :: 0 <= k < |cs| ==> decode(cs[k]).None?
    ensures r.Failure? ==> r.error == Strip(responseText)
    ensures r.Success? ==> FirstDecoded(Candidates(Strip(responseText)), decode) == Some(r.value)
  {
    var text := Strip(responseText);
    var d, at := FirstDecoding(Candidates(text), decode);
    if d.Some? {
      return Success(d.value);
    }
    return Failure(text);
  }

  /*---------------------------------------------------------------------------
   * Consequences of the pattern order
   *---------------------------------------------------------------------------*/

  /**
   * When the labelled fence is also the first fence in the text, the generic
   * pattern matches the same fence and its body is the label `json` followed
   * by the labelled body (with the whitespace between them); so a labelled body
   * that fails to decode is retried with `json` in front of it.
   */
  lemma {:induction false} GenericFenceSeesLabel(t: string)
    requires SearchFence(t, JsonOpener).Some?
    requires Find(t, Backticks, 0) == Some(SearchFence(t, JsonOpener).value.start)
    ensures var m := SearchFence(t, JsonOpener).value;
      var body := t[m.bodyStart..m.bodyEnd];
      Candidate(t, AnyFence) == Some(if body == [] then "json" else "json" + t[m.start + |JsonOpener|..m.bodyEnd])
  {
    var m := SearchFence(t, JsonOpener).value;
    GenericFenceAtLabel(t);
    LabelHoldsNoFence(t, m.start);
    if m.bodyStart < m.bodyEnd {
      SliceSplits(t, m.start + |Backticks|, m.start + |JsonOpener|, m.bodyEnd);
    }
  }

  lemma {:induction false} SliceSplits(t: string, a: nat, b: nat, c: nat)
    requires a <= b <= c <= |t|
    ensures t[a..c] == t[a..b] + t[b..c]
  {
  }

  /** The generic match in the situation of `GenericFenceSeesLabel`. */
  lemma {:induction false} GenericFenceAtLabel(t: string)
    requires SearchFence(t, JsonOpener).Some?
    requires Find(t, Backticks, 0) == Some(SearchFence(t, JsonOpener).value.start)
    ensures var m := SearchFence(t, JsonOpener).value;
      SearchFence(t, Backticks) == Some(FenceMatch(m.start, m.start + |Backticks|,
        if m.bodyStart < m.bodyEnd then m.bodyEnd else m.start + |JsonOpener|, m.close))
  {
    var m := SearchFence(t, JsonOpener).value;
    SearchFenceShape(t, JsonOpener);
    LabelHoldsNoFence(t, m.start);
    FindSkipsGap(t, Backticks, m.start + |Backticks|, m.start + |JsonOpener|);
    if m.bodyStart < m.bodyEnd {
      LabelledBodyFound(t, m.start, m.bodyEnd, m.close);
    } else {
      LabelledBodyFound(t, m.start, m.start + |JsonOpener|, m.close);
    }
  }

  /** The generic pattern reads the label and the labelled body as one body ending at `e`. */
  lemma {:induction false} LabelledBodyFound(t: string, i: nat, e: nat, c: nat)
    requires i + |JsonOpener| <= e <= c <= |t|
    requires Find(t, Backticks, 0) == Some(i)
    requires Find(t, Backticks, i + |Backticks|) == Some(c)
    requires SpaceBetween(t, e, c)
    requires !IsSpace(t[i + |Backticks|]) && !IsSpace(t[e - 1])
    ensures SearchFence(t, Backticks) == Some(FenceMatch(i, i + |Backticks|, e, c))
  {
    FenceFoundBody(t, Backticks, i, i + |Backticks|, e, c);
  }

  /** The label `json` of an opener holds no fence marker and starts and ends with non-space. */
  lemma {:induction false} LabelHoldsNoFence(t: string, i: nat)
    requires OccursAt(t, JsonOpener, i)
    ensures t[i + |Backticks|..i + |JsonOpener|] == "json"
    ensures !IsSpace(t[i + |Backticks|]) && !IsSpace(t[i + 6])
    ensures forall x :: i + |Backticks| <= x < i + |JsonOpener| ==> !OccursAt(t, Backticks, x)
  {
    OccursAtEach(t, JsonOpener, i);
    assert t[i + 3] == JsonOpener[3] && t[i + 4] == JsonOpener[4];
    assert t[i + 5] == JsonOpener[5] && t[i + 6] == JsonOpener[6];
    assert t[i + |Backticks|..i + |JsonOpener|] == "json";
    forall x | i + |Backticks| <= x < i + |JsonOpener| ensures !OccursAt(t, Backticks, x) {
      if OccursAt(t, Backticks, x) { BackticksStartWithBacktick(t, x); }
    }
  }

  /*---------------------------------------------------------------------------
   * Round trips: wrapping a body and extracting it gives the body back
   *---------------------------------------------------------------------------*/

  predicate NoBacktick(s: string) {
    forall x :: 0 <= x < |s| ==> s[x] != '`'
  }

  /** A body as the fence patterns capture it: no surrounding whitespace. */
  predicate Trimmed(s: string) {
    s == [] || (!IsSpace(s[0]) && !IsSpace(s[|s| - 1]))
  }

  /** Where each piece of a fenced reply sits. */
  lemma {:induction false} FencedLayout(pre: string, opener: string, w1: string, body: string, w2: string, post: string)
    ensures LaidOut(Fenced(pre, opener, w1, body, w2, post), pre, opener, w1, body, w2)
  {
    FencedHead(pre, opener, w1, body, w2, post);
    FencedMiddle(pre, opener, w1, body, w2, post);
    FencedTail(pre, opener, w1, body, w2, post);
  }

  /** The prose and the opener at the start of a fenced reply. */
  lemma {:induction false} FencedHead(pre: string, opener: string, w1: string, body: string, w2: string, post: string)
    ensures var t := Fenced(pre, opener, w1, body, w2, post);
      PieceAt(t, 0, pre) && OccursAt(t, opener, |pre|)
  {
    var a1 := pre + opener;
    var a5 := a1 + w1 + body + w2 + Backticks;
    var t := a5 + post;
    forall x | 0 <= x < |a1| ensures t[x] == a1[x] {
      assert t[x] == a5[x] == (a1 + w1 + body + w2)[x] == (a1 + w1 + body)[x] == (a1 + w1)[x];
    }
    OccursAtEnd(pre, opener);
    OccursInLonger(a1, w1, opener, |pre|);
    OccursInLonger(a1 + w1, body, opener, |pre|);
    OccursInLonger(a1 + w1 + body, w2, opener, |pre|);
    OccursInLonger(a1 + w1 + body + w2, Backticks, opener, |pre|);
    OccursInLonger(a5, post, opener, |pre|);
  }

  lemma {:induction false} OccursAtEnd(l: string, pat: string)
    ensures OccursAt(l + pat, pat, |l|)
  {
    OccursAtEach(l + pat, pat, |l|);
  }

  lemma {:induction false} OccursInLonger(s: string, r: string, pat: string, i: int)
    requires OccursAt(s, pat, i)
    ensures OccursAt(s + r, pat, i)
  {
    OccursAtEach(s, pat, i);
    OccursAtEach(s + r, pat, i);
  }

  /** The whitespace and the body inside the fence of a fenced reply. */
  lemma {:induction false} FencedMiddle(pre: string, opener: string, w1: string, body: string, w2: string, post: string)
    ensures var t := Fenced(pre, opener, w1, body, w2, post);
      var p := |pre| + |opener|;
      var j := p + |w1|;
      var k := j + |body|;
      PieceAt(t, p, w1) && PieceAt(t, j, body) && PieceAt(t, k, w2)
  {
    var a2 := pre + opener + w1;
    var a3 := a2 + body;
    var a4 := a3 + w2;
    var a5 := a4 + Backticks;
    var t := a5 + post;
    forall x | 0 <= x < |a4| ensures t[x] == a4[x] {
      assert t[x] == a5[x];
    }
    forall x | 0 <= x < |a2| ensures t[x] == a2[x] {
      assert t[x] == a4[x] == a3[x];
    }
  }

  /** The closing fence of a fenced reply. */
  lemma {:induction false} FencedTail(pre: string, opener: string, w1: string, body: string, w2: string, post: string)
    ensures var t := Fenced(pre, opener, w1, body, w2, post);
      OccursAt(t, Backticks, |pre| + |opener| + |w1| + |body| + |w2|)
  {
    var a4 := pre + opener + w1 + body + w2;
    OccursAtEnd(a4, Backticks);
    OccursInLonger(a4 + Backticks, post, Backticks, |a4|);
  }

  /** A fence marker cannot start at a character that is not a backtick. */
  lemma {:induction false} NoFenceWithoutBacktick(t: string, pat: string, x: nat)
    requires pat == JsonOpener || pat == Backticks
    requires x < |t| && t[x] != '`'
    ensures !OccursAt(t, pat, x)
  {
    if x + |pat| <= |t| {
      assert t[x..x + |pat|][0] == t[x];
    }
  }

  /** A reply that wraps `body` in a fence between prose `pre` and arbitrary `post`. */
  function Fenced(pre: string, opener: string, w1: string, body: string, w2: string, post: string): string {
    pre + opener + w1 + body + w2 + Backticks + post
  }

  /** `t` holds `pre`, `opener`, `w1`, `body`, `w2` and a closing fence, in that order, from index 0. */
  ghost predicate LaidOut(t: string, pre: string, opener: string, w1: string, body: string, w2: string) {
    var p := |pre| + |opener|;
    var j := p + |w1|;
    var k := j + |body|;
    && PieceAt(t, 0, pre)
    && OccursAt(t, opener, |pre|)
    && PieceAt(t, p, w1)
    && PieceAt(t, j, body)
    && PieceAt(t, k, w2)
    && OccursAt(t, Backticks, k + |w2|)
  }

  /**
   * `t` holds `piece` from index `at` on. This is `OccursAt` (see `PieceAtIsOccursAt`)
   * stated index by index: the searches unfold the recursive `OccursAt` for the
   * short fixed openers, while the layout lemmas reason about arbitrary-length
   * prose and bodies one character at a time.
   */
  ghost predicate PieceAt(t: string, at: int, piece: string) {
    0 <= at && at + |piece| <= |t| && forall x :: at <= x < at + |piece| ==> t[x] == piece[x - at]
  }

  lemma {:induction false} PieceAtIsOccursAt(t: string, at: int, piece: string)
    ensures PieceAt(t, at, piece) <==> OccursAt(t, piece, at)
  {
    OccursAtEach(t, piece, at);
    if 0 <= at && at + |piece| <= |t| {
      if forall x :: 0 <= x < |piece| ==> t[at + x] == piece[x] {
        forall x | at <= x < at + |piece| ensures t[x] == piece[x - at] {
          assert t[at + (x - at)] == piece[x - at];
        }
      }
      if PieceAt(t, at, piece) {
        forall x | 0 <= x < |piece| ensures t[at + x] == piece[x] {
          assert t[at + x] == piece[at + x - at];
        }
      }
    }
  }

  lemma {:induction false} SearchFenceRoundTrip(t: string, pre: string, opener: string, w1: string, body: string, w2: string)
    requires opener == JsonOpener || opener == Backticks
    requires NoBacktick(pre) && NoBacktick(body) && Trimmed(body)
    requires SpaceBetween(w1, 0, |w1|) && SpaceBetween(w2, 0, |w2|)
    requires LaidOut(t, pre, opener, w1, body, w2)
    ensures SearchFence(t, opener).Some?
    ensures t[SearchFence(t, opener).value.bodyStart..SearchFence(t, opener).value.bodyEnd] == body
  {
    LaidOutFence(t, pre, opener, w1, body, w2);
    FencedSpans(t, pre, opener, w1, body, w2);
  }

  /** Where `SearchFence` finds the opener, the body and the closing fence of a laid-out reply. */
  lemma {:induction false} LaidOutFence(t: string, pre: string, opener: string, w1: string, body: string, w2: string)
    requires opener == JsonOpener || opener == Backticks
    requires NoBacktick(pre) && NoBacktick(body) && Trimmed(body)
    requires SpaceBetween(w1, 0, |w1|) && SpaceBetween(w2, 0, |w2|)
    requires LaidOut(t, pre, opener, w1, body, w2)
    ensures var i := |pre|;
      var j := i + |opener| + |w1|;
      var k := j + |body|;
      var c := k + |w2|;
      SearchFence(t, opener) == Some(if body == [] then FenceMatch(i, c, c, c) else FenceMatch(i, j, k, c))
  {
    FencedSearches(t, pre, opener, w1, body, w2);
    FencedSpans(t, pre, opener, w1, body, w2);
    if body == [] {
      LaidOutEmptyFence(t, pre, opener, w1, body, w2);
    } else {
      LaidOutFullFence(t, pre, opener, w1, body, w2);
    }
  }

  lemma {:induction false} LaidOutEmptyFence(t: string, pre: string, opener: string, w1: string, body: string, w2: string)
    requires body == []
    requires |pre| + |opener| + |w1| + |w2| <= |t|
    requires Find(t, opener, 0) == Some(|pre|)
    requires Find(t, Backticks, |pre| + |opener|) == Some(|pre| + |opener| + |w1| + |body| + |w2|)
    requires SpaceBetween(t, |pre| + |opener|, |pre| + |opener| + |w1| + |body| + |w2|)
    ensures var c := |pre| + |opener| + |w1| + |w2|;
      SearchFence(t, opener) == Some(FenceMatch(|pre|, c, c, c))
  {
    FenceFoundEmpty(t, opener, |pre|, |pre| + |opener| + |w1| + |w2|);
  }

  lemma {:induction false} LaidOutFullFence(t: string, pre: string, opener: string, w1: string, body: string, w2: string)
    requires body != []
    requires |pre| + |opener| + |w1| + |body| + |w2| <= |t|
    requires Find(t, opener, 0) == Some(|pre|)
    requires Find(t, Backticks, |pre| + |opener|) == Some(|pre| + |opener| + |w1| + |body| + |w2|)
    requires var j := |pre| + |opener| + |w1|;
      var k := j + |body|;
      && SpaceBetween(t, |pre| + |opener|, j) && SpaceBetween(t, k, k + |w2|)
      && !IsSpace(t[j]) && !IsSpace(t[k - 1])
    ensures var j := |pre| + |opener| + |w1|;
      var k := j + |body|;
      SearchFence(t, opener) == Some(FenceMatch(|pre|, j, k, k + |w2|))
  {
    var j := |pre| + |opener| + |w1|;
    var k := j + |body|;
    FenceFoundBody(t, opener, |pre|, j, k, k + |w2|);
  }

  /** The whitespace and the body of a laid-out reply, read back from the reply. */
  lemma {:induction false} FencedSpans(t: string, pre: string, opener: string, w1: string, body: string, w2: string)
    requires Trimmed(body)
    requires SpaceBetween(w1, 0, |w1|) && SpaceBetween(w2, 0, |w2|)
    requires LaidOut(t, pre, opener, w1, body, w2)
    ensures var i := |pre|;
      var j := i + |opener| + |w1|;
      var k := j + |body|;
      var c := k + |w2|;
      && (body == [] ==> SpaceBetween(t, i + |opener|, c))
      && (body != [] ==> SpaceBetween(t, i + |opener|, j) && SpaceBetween(t, k, c))
      && (body != [] ==> !IsSpace(t[j]) && !IsSpace(t[k - 1]))
      && t[j..k] == body
  {
    var j := |pre| + |opener| + |w1|;
    var k := j + |body|;
    if body != [] {
      assert t[j] == body[0] && t[k - 1] == body[|body| - 1];
    }
    assert t[j..k] == body;
  }

  /** `SearchFence` when the fence holds only whitespace. */
  lemma {:induction false} FenceFoundEmpty(t: string, opener: string, i: nat, c: nat)
    requires i + |opener| <= c <= |t|
    requires Find(t, opener, 0) == Some(i)
    requires Find(t, Backticks, i + |opener|) == Some(c)
    requires SpaceBetween(t, i + |opener|, c)
    ensures SearchFence(t, opener) == Some(FenceMatch(i, c, c, c))
  {
    SkipSpacesIsUnique(t, i + |opener|, c, c);
    TrimBackIsUnique(t, c, c, c);
    FenceFoundAt(t, opener, i, c, c, c);
  }

  /** `SearchFence` when the fence holds `t[j..k]`, which starts and ends with non-space. */
  lemma {:induction false} FenceFoundBody(t: string, opener: string, i: nat, j: nat, k: nat, c: nat)
    requires i + |opener| <= j < k <= c <= |t|
    requires Find(t, opener, 0) == Some(i)
    requires Find(t, Backticks, i + |opener|) == Some(c)
    requires SpaceBetween(t, i + |opener|, j) && SpaceBetween(t, k, c)
    requires !IsSpace(t[j]) && !IsSpace(t[k - 1])
    ensures SearchFence(t, opener) == Some(FenceMatch(i, j, k, c))
  {
    SkipSpacesIsUnique(t, i + |opener|, c, j);
    TrimBackIsUnique(t, j, c, k);
    FenceFoundAt(t, opener, i, j, k, c);
  }

  /** `SearchFence` once the opener and the closing fence are known. */
  lemma {:induction false} FenceFoundAt(t: string, opener: string, i: nat, j: nat, k: nat, c: nat)
    requires i + |opener| <= j <= c <= |t|
    requires Find(t, opener, 0) == Some(i)
    requires Find(t, Backticks, i + |opener|) == Some(c)
    requires SkipSpaces(t, i + |opener|, c) == j && TrimBack(t, j, c) == k
    ensures SearchFence(t, opener) == Some(FenceMatch(i, j, k, c))
  {
  }

  /** In a laid-out reply the opener after `pre` and the fence after `w2` are the first ones found. */
  lemma {:induction false} FencedSearches(t: string, pre: string, opener: string, w1: string, body: string, w2: string)
    requires opener == JsonOpener || opener == Backticks
    requires NoBacktick(pre) && NoBacktick(body)
    requires SpaceBetween(w1, 0, |w1|) && SpaceBetween(w2, 0, |w2|)
    requires LaidOut(t, pre, opener, w1, body, w2)
    ensures var p := |pre| + |opener|;
      && Find(t, opener, 0) == Some(|pre|)
      && Find(t, Backticks, p) == Some(p + |w1| + |body| + |w2|)
  {
    var i := |pre|;
    var p := i + |opener|;
    var j := p + |w1|;
    var k := j + |body|;
    var c := k + |w2|;
    forall x | 0 <= x < i ensures !OccursAt(t, opener, x) {
      NoFenceWithoutBacktick(t, opener, x);
    }
    FindAt(t, opener, 0, i);
    forall x | p <= x < c ensures !OccursAt(t, Backticks, x) {
      if x < j { assert t[x] == w1[x - p]; }
      else if x < k { assert t[x] == body[x - j]; }
      else { assert t[x] == w2[x - k]; }
      NoFenceWithoutBacktick(t, Backticks, x);
    }
    FindAt(t, Backticks, p, c);
  }

  /** The two searches `SearchFence` makes, and where it puts the body between them. */
  lemma {:induction false} SearchFenceShape(t: string, opener: string)
    requires SearchFence(t, opener).Some?
    ensures var m := SearchFence(t, opener).value;
      && Find(t, opener, 0) == Some(m.start)
      && Find(t, Backticks, m.start + |opener|) == Some(m.close)
      && m.bodyStart == SkipSpaces(t, m.start + |opener|, m.close)
      && m.bodyEnd == TrimBack(t, m.bodyStart, m.close)
  {
  }

  /**
   * Extraction inverts fencing: a reply holding a ```` ```json ```` (or plain
   * ```` ``` ````) fence after backtick-free prose yields the fenced body as that
   * pattern's candidate, whatever whitespace surrounds the body and whatever
   * follows the fence.
   */
  lemma {:induction false} FenceRoundTrip(pre: string, labelled: bool, w1: string, body: string, w2: string, post: string)
    requires NoBacktick(pre) && NoBacktick(body) && Trimmed(body)
    requires SpaceBetween(w1, 0, |w1|) && SpaceBetween(w2, 0, |w2|)
    ensures var opener := if labelled then JsonOpener else Backticks;
      Candidate(Fenced(pre, opener, w1, body, w2, post), if labelled then JsonFence else AnyFence) == Some(body)
  {
    var opener := if labelled then JsonOpener else Backticks;
    var t := Fenced(pre, opener, w1, body, w2, post);
    FencedLayout(pre, opener, w1, body, w2, post);
    SearchFenceRoundTrip(t, pre, opener, w1, body, w2);
    var m := SearchFence(t, opener).value;
    if labelled {
      assert Candidate(t, JsonFence) == Some(t[m.bodyStart..m.bodyEnd]);
    } else {
      assert Candidate(t, AnyFence) == Some(t[m.bodyStart..m.bodyEnd]);
    }
  }

  /**
   * The brace candidate of prose, an object, and more prose is the whole
   * object, however deeply it nests, provided the prose before it has no `{`
   * and the prose after it no `}`.
   */
  lemma {:induction false} BraceRoundTrip(pre: string, obj: string, post: string)
    requires forall x :: 0 <= x < |pre| ==> pre[x] != '{'
    requires forall x :: 0 <= x < |post| ==> post[x] != '}'
    requires |obj| >= 2 && obj[0] == '{' && obj[|obj| - 1] == '}'
    ensures Candidate(pre + obj + post, BraceSpan) == Some(obj)
  {
    var t := pre + obj + post;
    var i := |pre|;
    var e := i + |obj| - 1;
    assert t[i] == '{' && t[e] == '}';
    assert forall x :: 0 <= x < i ==> t[x] == pre[x];
    assert forall x :: e < x < |t| ==> t[x] == post[x - e - 1];
    var m := SearchBraces(t).value;
    assert m.open == i && m.close == e;
    assert t[i..e + 1] == obj;
  }
}

=== FILE: json.dfy ===
/**
 * The values Python's `json.loads` produces, and the two Python operations the
 * application applies to them: truthiness (`if x:`) and `dict.get` with a default.
 * The decoder itself is not modelled; callers receive it as a parameter.
 */
module JsonValue {
  import opened Wrappers

  /** A decoded JSON document. Objects are Python dicts: each key at most once. */
  datatype Json =
    | JNull
    | JBool(b: bool)
    | JInt(i: int)
    | JFloat(f: real)
    | JStr(s: string)
    | JArr(items: seq<Json>)
    | JObj(fields: map<string, Json>)

  /** Python truthiness: `None`, `False`, zero, and empty strings, lists and dicts are false. */
  predicate Truthy(j: Json): (b: bool)
    ensures !b <==> j in {JNull, JBool(false), JInt(0), JFloat(0.0), JStr(""), JArr([]), JObj(map[])}
  {
    match j
    case JNull => false
    case JBool(b) => b
    case JInt(i) => i != 0
    case JFloat(f) => f != 0.0
    case JStr(s) => |s| > 0
    case JArr(items) => |items| > 0
    case JObj(fields) => |fields| > 0
  }

  /**
   * The numeric value Python compares when a JSON value meets `>=` with an int:
   * booleans count as 0 and 1, ints and floats as themselves; anything else
   * makes the comparison raise `TypeError`.
   */
  function NumericValue(j: Json): (r: Option<real>)
    ensures r.Some? <==> (j.JBool? || j.JInt? || j.JFloat?)
    ensures j.JInt? ==> r == Some(j.i as real)
    ensures j.JFloat? ==> r == Some(j.f)
    ensures j == JBool(true) ==> r == Some(1.0)
    ensures j == JBool(false) ==> r == Some(0.0)
  {
    match j
    case JBool(b) => Some(if b then 1.0 else 0.0)
    case JInt(i) => Some(i as real)
    case JFloat(f) => Some(f)
    case _ => None
  }
}

=== FILE: location.dfy ===
/**
 * The record `get_user_location` (app.py) builds from the IP-geolocation
 * reply, and its fixed fallback. The HTTP request is not modelled: its outcome
 * is a parameter.
 */
module Location {
  import opened Wrappers

  datatype UserLocation = UserLocation(countryCode: string, countryName: string, city: string, fullLocation: string)

  /** The record returned whenever the lookup fails. */
  const Fallback: UserLocation := UserLocation("OTHER", "International", "", "International")

  /**
   * What the request produced: `None` when it raised; otherwise the status code
   * and the body's fields when the body is a JSON object of strings. The body
   * is `None` when reading it raised inside the bare `except`: when decoding
   * failed, and also when the decoded body is a list, string or number, whose
   * missing `.get` raises `AttributeError`.
   */
  datatype IpReply = IpReply(status: int, body: Option<map<string, string>>)

  /** The label shown to the user: "city, country" when a city is known, else the country. */
  function FullLocation(city: string, country: string): (r: string)
    ensures city != "" ==> |r| == |city| + 2 + |country| && r[..|city|] == city && r[|city|..|city| + 2] == ", " && r[|city| + 2..] == country
    ensures city == "" ==> r == country
  {
    if city != "" then city + ", " + country else country
  }

  /** The label is the bare country name exactly when no city is known. */
  lemma {:induction false} FullLocationIsCountryIff(city: string, country: string)
    ensures FullLocation(city, country) == country <==> city == ""
  {
    if city != "" {
      assert |FullLocation(city, country)| > |country|;
    }
  }

  /** Every record the helper returns labels itself consistently. */
  predicate Consistent(loc: UserLocation) {
    loc.fullLocation == FullLocation(loc.city, loc.countryName)
  }

  /**
   * `get_user_location`: the reply's country code, country name and city (with
   * defaults OTHER, International and "") on a 200 reply with an object body,
   * and the fixed fallback on every failure.
   */
  function GetUserLocation(reply: Option<IpReply>): (r: UserLocation)
    ensures Consistent(r)
    ensures reply.None? || reply.value.status != 200 || reply.value.body.None? ==> r == Fallback
    ensures reply.Some? && reply.value.status == 200 && reply.value.body.Some? ==>
      var d := reply.value.body.value;
      && r.countryCode == (if "country_code" in d then d["country_code"] else "OTHER")
      && r.countryName == (if "country_name" in d then d["country_name"] else "International")
      && r.city == (if "city" in d then d["city"] else "")
  {
    match reply
    case Some(IpReply(200, Some(d))) =>
      var name := Get(d, "country_name", "International");
      var city := Get(d, "city", "");
      UserLocation(Get(d, "country_code", "OTHER"), name, city, FullLocation(city, name))
    case _ => Fallback
  }

  /** A reply with no fields at all yields the same record as a failed lookup. */
  lemma EmptyReplyIsFallback()
    ensures GetUserLocation(Some(IpReply(200, Some(map[])))) == Fallback
  {
  }
}

=== FILE: score.dfy ===
/**
 * Score banding: `get_score_color` (app.py) sorts an integrity score into the
 * rubric's traffic-light bands, and the results page feeds it the decoded
 * `score` field (default 0).
 */
module Score {
  import opened Wrappers
  import opened JsonValue

  /** The three bands, with the colour class, emoji and status line the source returns for each. */
  datatype Band = Green | Orange | Red {
    function Color(): string {
      match this
      case Green => "green"
      case Orange => "orange"
      case Red => "red"
    }

    function Emoji(): string {
      match this
      case Green => "\U{1F7E2}"
      case Orange => "\U{1F7E0}"
      case Red => "\U{1F534}"
    }

    function Status(): string {
      match this
      case Green => "HONEST PRODUCT"
      case Orange => "SUSPICIOUS"
      case Red => "HIGH DECEPTION"
    }

    /** Position from most to least deceptive. */
    function Rank(): nat {
      match this
      case Red => 0
      case Orange => 1
      case Green => 2
    }
  }

  /** The rubric's table of thresholds, stated for the documented range 0-100 only. */
  ghost predicate RubricAssigns(score: int, b: Band) {
    || (80 <= score <= 100 && b == Green)
    || (50 <= score <= 79 && b == Orange)
    || (0 <= score <= 49 && b == Red)
  }

  /**
   * `get_score_color`: the rubric's band for every score in 0-100, and no
   * clamping outside it: above 100 is still green, below 0 still red.
   */
  function GetScoreColor(score: int): (b: Band)
    ensures 0 <= score <= 100 ==> RubricAssigns(score, b)
    ensures score > 100 ==> b == Green
    ensures score < 0 ==> b == Red
  {
    if score >= 80 then Green
    else if score >= 50 then Orange
    else Red
  }

  /** Within 0-100 the rubric assigns exactly one band, the one `GetScoreColor` returns. */
  lemma RubricIsAFunction(score: int, b: Band)
    requires RubricAssigns(score, b)
    ensures b == GetScoreColor(score)
  {
  }

  /** A higher score never lands in a more deceptive band. */
  lemma GetScoreColorIsMonotone(s1: int, s2: int)
    requires s1 <= s2
    ensures GetScoreColor(s1).Rank() <= GetScoreColor(s2).Rank()
  {
  }

  /**
   * The band `get_score_color` gives `result.get('score', 0)` of a decoded
   * result. Booleans compare with the int thresholds as 0 and 1, floats by
   * value; any other JSON value makes the comparison raise (`None` here).
   */
  function ResultBand(result: map<string, Json>): (r: Option<Band>)
    ensures "score" !in result ==> r == Some(Red)
    ensures r.Some? <==> NumericValue(Get(result, "score", JInt(0))).Some?
    ensures r.Some? ==> var v := NumericValue(Get(result, "score", JInt(0))).value;
      && (r.value == Green <==> v >= 80.0)
      && (r.value == Orange <==> 50.0 <= v < 80.0)
      && (r.value == Red <==> v < 50.0)
  {
    match NumericValue(Get(result, "score", JInt(0)))
    case None => None
    case Some(v) => Some(GetScoreColor(v.Floor))
  }
}

=== FILE: session.dfy ===
/**
 * The capture session of the scan page (app.py): the photos taken so far and
 * the `capture_step` counter that names the next camera widget, changed by
 * taking a photo, "Clear & Retake" and a completed scan.
 */
module Session {
  import opened Wrappers

  /** The most photos the camera flow collects and the most uploads analysed. */
  const MaxImages: nat := 3

  /** An image handed to the app by the camera or the uploader. */
  datatype Photo = Photo(id: nat)

  datatype CaptureState = CaptureState(captured: seq<Photo>, step: int)

  /** The state a new session starts in. */
  const Initial: CaptureState := CaptureState([], 1)

  /** The step counter always names the next photo, and at most three are held. */
  predicate Valid(s: CaptureState) {
    |s.captured| <= MaxImages && s.step == |s.captured| + 1
  }

  datatype InputMode = TakePhotos | UploadImages(files: seq<Photo>)

  datatype Event =
    | PhotoTaken(photo: Photo)
    | ClearAndRetake
    | ScanFinished(mode: InputMode, analysed: bool)

  /** `uploaded_files[:3]`: the first three uploads, in order. */
  function FirstThree(files: seq<Photo>): (r: seq<Photo>)
    ensures |r| == if |files| <= MaxImages then |files| else MaxImages
    ensures r <= files
  {
    if |files| <= MaxImages then files else files[..MaxImages]
  }

  /** Cutting an already cut list changes nothing. */
  lemma {:induction false} FirstThreeIsIdempotent(files: seq<Photo>)
    ensures FirstThree(FirstThree(files)) == FirstThree(files)
  {
  }

  /**
   * The images a scan analyses in the chosen input mode: the captured photos,
   * or the first uploads; in a valid session never more than three.
   */
  function ProductImages(s: CaptureState, mode: InputMode): (r: seq<Photo>)
    ensures Valid(s) ==> |r| <= MaxImages
    ensures mode.TakePhotos? ==> r == s.captured
    ensures mode.UploadImages? ==> r <= mode.files
    ensures mode.UploadImages? ==> |r| == if |mode.files| <= MaxImages then |mode.files| else MaxImages
  {
    match mode
    case TakePhotos => s.captured
    case UploadImages(files) => FirstThree(files)
  }

  /**
   * Whether the page offers the widget that produces `e`. The scan button is
   * enabled exactly when the chosen mode has at least one image.
   */
  predicate Offered(s: CaptureState, e: Event): (b: bool)
    ensures e.ScanFinished? ==>
      (b <==> (e.mode.TakePhotos? && s.captured != []) || (e.mode.UploadImages? && e.mode.files != []))
  {
    match e
    case PhotoTaken(_) => |s.captured| < MaxImages
    case ClearAndRetake => |s.captured| > 0
    case ScanFinished(mode, _) => |ProductImages(s, mode)| > 0
  }

  /**
   * One interaction: a new photo is appended and advances the step; clearing,
   * and a scan whose analysis returned, reset the session; a scan that raised
   * leaves the photos in place. `None` when the page does not offer the event.
   */
  function Next(s: CaptureState, e: Event): (r: Option<CaptureState>)
    ensures r.Some? <==> Offered(s, e)
    ensures Valid(s) && r.Some? ==> Valid(r.value)
    ensures r.Some? && e.PhotoTaken? ==> r.value.captured == s.captured + [e.photo]
    ensures r.Some? && (e.ClearAndRetake? || (e.ScanFinished? && e.analysed)) ==> r.value == Initial
    ensures r.Some? && e.ScanFinished? && !e.analysed ==> r.value == s
  {
    if !Offered(s, e) then None
    else
      match e
      case PhotoTaken(p) => Some(CaptureState(s.captured + [p], s.step + 1))
      case ClearAndRetake => Some(Initial)
      case ScanFinished(_, analysed) => Some(if analysed then Initial else s)
  }

  /** A sequence of interactions; events the page does not offer change nothing. */
  function Run(s: CaptureState, events: seq<Event>): CaptureState
    decreases |events|
  {
    if events == [] then s
    else
      var s' := match Next(s, events[0]) case Some(n) => n case None => s;
      Run(s', events[1..])
  }

  /** Every session reachable from the initial state is valid. */
  lemma {:induction false} RunPreservesValid(s: CaptureState, events: seq<Event>)
    requires Valid(s)
    ensures Valid(Run(s, events))
    decreases |events|
  {
    if events != [] {
      var s' := match Next(s, events[0]) case Some(n) => n case None => s;
      RunPreservesValid(s', events[1..]);
    }
  }

  /** Every session reachable from the initial state is valid and holds only photos that were taken. */
  lemma ReachableSessionsAreValid(events: seq<Event>)
    ensures Valid(Run(Initial, events))
    ensures forall p :: p in Run(Initial, events).captured ==> PhotoTaken(p) in events
  {
    RunPreservesValid(Initial, events);
    RunHoldsTakenPhotos(Initial, events);
  }

  /** A photo held after a run was held before it or taken during it. */
  lemma {:induction false} RunHoldsTakenPhotos(s: CaptureState, events: seq<Event>)
    ensures forall p :: p in Run(s, events).captured ==> p in s.captured || PhotoTaken(p) in events
    decreases |events|
  {
    if events != [] {
      var s' := match Next(s, events[0]) case Some(n) => n case None => s;
      RunHoldsTakenPhotos(s', events[1..]);
      forall p | p in s'.captured ensures p in s.captured || PhotoTaken(p) in events {
        assert events[0] in events;
      }
      forall p | PhotoTaken(p) in events[1..] ensures PhotoTaken(p) in events {
      }
    }
  }

  /** Three photos taken in a row are held in order, and a fourth is not offered. */
  lemma ThreePhotosFillTheSession(a: Photo, b: Photo, c: Photo, d: Photo)
    ensures Run(Initial, [PhotoTaken(a), PhotoTaken(b), PhotoTaken(c)]) == CaptureState([a, b, c], 4)
    ensures Next(CaptureState([a, b, c], 4), PhotoTaken(d)).None?
  {
    var s1 := CaptureState([a], 2);
    var s2 := CaptureState([a, b], 3);
    assert [] + [a] == [a] && [a] + [b] == [a, b] && [a, b] + [c] == [a, b, c];
    assert Next(Initial, PhotoTaken(a)) == Some(s1);
    assert Next(s1, PhotoTaken(b)) == Some(s2);
    assert Next(s2, PhotoTaken(c)) == Some(CaptureState([a, b, c], 4));
    assert [PhotoTaken(a), PhotoTaken(b), PhotoTaken(c)][1..] == [PhotoTaken(b), PhotoTaken(c)];
    assert [PhotoTaken(b), PhotoTaken(c)][1..] == [PhotoTaken(c)];
    assert Run(s2, [PhotoTaken(c)]) == CaptureState([a, b, c], 4);
    assert Run(s1, [PhotoTaken(b), PhotoTaken(c)]) == CaptureState([a, b, c], 4);
  }
}

=== FILE: text.dfy ===
/**
 * String primitives used by the response extractor: Python's whitespace class,
 * `str.strip()`, and leftmost/rightmost searches.
 */
module Text {
  import opened Wrappers

  /**
   * Python's Unicode whitespace: the characters both `str.strip()` (with no
   * argument) and the regular-expression class `\s` (on `str` patterns) remove
   * or match.
   */
  predicate IsSpace(c: char) {
    || ('\U{9}' <= c <= '\U{D}')
    || ('\U{1C}' <= c <= '\U{20}')
    || c == '\U{85}' || c == '\U{A0}' || c == '\U{1680}'
    || ('\U{2000}' <= c <= '\U{200A}')
    || c == '\U{2028}' || c == '\U{2029}' || c == '\U{202F}' || c == '\U{205F}'
    || c == '\U{3000}'
  }

  /** Every character of `s` at an index in `[lo, hi)` is whitespace. */
  predicate SpaceBetween(s: string, lo: int, hi: int) {
    forall x :: lo <= x < hi && 0 <= x < |s| ==> IsSpace(s[x])
  }

  /** `s.strip()`: `s` without its leading and trailing whitespace. */
  function Strip(s: string): (r: string)
    ensures |r| <= |s|
    ensures r == [] <==> SpaceBetween(s, 0, |s|)
    ensures r != [] ==> !IsSpace(r[0]) && !IsSpace(r[|r| - 1])
  {
    var a := SkipSpaces(s, 0, |s|);
    s[a..TrimBack(s, a, |s|)]
  }

  /**
   * `Strip` is the only way to cut `s` into whitespace, a middle that neither
   * starts nor ends with whitespace, and whitespace.
   */
  lemma {:induction false} StripIsUnique(s: string, a: int, b: int)
    requires 0 <= a <= b <= |s|
    requires SpaceBetween(s, 0, a) && SpaceBetween(s, b, |s|)
    requires a == b || (!IsSpace(s[a]) && !IsSpace(s[b - 1]))
    ensures Strip(s) == s[a..b]
  {
    if a == b {
      assert SpaceBetween(s, 0, |s|);
      SkipSpacesIsUnique(s, 0, |s|, |s|);
    } else {
      SkipSpacesIsUnique(s, 0, |s|, a);
      TrimBackIsUnique(s, a, |s|, b);
    }
  }

  /** The `Strip` of a slice, given the whitespace margins inside it. */
  lemma {:induction false} StripOfSlice(t: string, lo: int, a: int, b: int, hi: int)
    requires 0 <= lo <= a <= b <= hi <= |t|
    requires SpaceBetween(t, lo, a) && SpaceBetween(t, b, hi)
    requires a == b || (!IsSpace(t[a]) && !IsSpace(t[b - 1]))
    ensures Strip(t[lo..hi]) == t[a..b]
  {
    var seg := t[lo..hi];
    assert SpaceBetween(seg, 0, a - lo);
    assert SpaceBetween(seg, b - lo, |seg|);
    StripIsUnique(seg, a - lo, b - lo);
    SliceOfSlice(t, lo, a, b, hi);
  }

  lemma {:induction false} SliceOfSlice(t: string, lo: int, a: int, b: int, hi: int)
    requires 0 <= lo <= a <= b <= hi <= |t|
    ensures t[lo..hi][a - lo..b - lo] == t[a..b]
  {
    var u := t[lo..hi][a - lo..b - lo];
    assert |u| == b - a;
    forall k | 0 <= k < b - a ensures u[k] == t[a..b][k] {
      assert u[k] == t[lo..hi][a - lo + k] == t[a + k];
    }
  }

  /** `pat` occurs in `t` starting at index `i`. */
  predicate OccursAt(t: string, pat: string, i: int) {
    0 <= i && i + |pat| <= |t| && AgreesFrom(t, pat, i, 0)
  }

  /** With `pat` placed at index `i` of `t`, the two agree from offset `k` of `pat` on. */
  predicate AgreesFrom(t: string, pat: string, i: nat, k: nat)
    requires i + |pat| <= |t|
    decreases |pat| - k
  {
    k >= |pat| || (t[i + k] == pat[k] && AgreesFrom(t, pat, i, k + 1))
  }

  lemma {:induction false} AgreesFromEach(t: string, pat: string, i: nat, k: nat)
    requires i + |pat| <= |t|
    ensures AgreesFrom(t, pat, i, k) <==> forall x :: k <= x < |pat| ==> t[i + x] == pat[x]
    decreases |pat| - k
  {
    if k < |pat| {
      AgreesFromEach(t, pat, i, k + 1);
    }
  }

  /** An occurrence, character by character. */
  lemma {:induction false} OccursAtEach(t: string, pat: string, i: int)
    ensures OccursAt(t, pat, i) <==>
      0 <= i && i + |pat| <= |t| && forall x :: 0 <= x < |pat| ==> t[i + x] == pat[x]
  {
    if 0 <= i && i + |pat| <= |t| {
      AgreesFromEach(t, pat, i, 0);
    }
  }

  /** The leftmost occurrence of `pat` in `t` at or after index `from`, as `str.find` reports it. */
  function Find(t: string, pat: string, from: nat): (r: Option<nat>)
    ensures r.Some? ==> from <= r.value && OccursAt(t, pat, r.value)
    ensures r.Some? ==> forall i :: from <= i < r.value ==> !OccursAt(t, pat, i)
    ensures r.None? ==> forall i :: from <= i ==> !OccursAt(t, pat, i)
    decreases |t| - from
  {
    if from + |pat| > |t| then None
    else if OccursAt(t, pat, from) then Some(from)
    else Find(t, pat, from + 1)
  }

  /** The leftmost index at or after `from` holding character `c`. */
  function IndexOf(t: string, c: char, from: nat): (r: Option<nat>)
    ensures r.Some? ==> from <= r.value < |t| && t[r.value] == c
    ensures r.Some? ==> forall i :: from <= i < r.value ==> t[i] != c
    ensures r.None? ==> forall i :: from <= i < |t| ==> t[i] != c
    decreases |t| - from
  {
    if from >= |t| then None
    else if t[from] == c then Some(from)
    else IndexOf(t, c, from + 1)
  }

  /** The rightmost index below `end` holding character `c`. */
  function LastIndexOf(t: string, c: char, end: nat): (r: Option<nat>)
    requires end <= |t|
    ensures r.Some? ==> r.value < end && t[r.value] == c
    ensures r.Some? ==> forall i :: r.value < i < end ==> t[i] != c
    ensures r.None? ==> forall i :: 0 <= i < end ==> t[i] != c
  {
    if end == 0 then None
    else if t[end - 1] == c then Some(end - 1)
    else LastIndexOf(t, c, end - 1)
  }

  /** The end of the run of whitespace starting at `from`, stopping at `limit`. */
  function SkipSpaces(t: string, from: nat, limit: nat): (j: nat)
    requires from <= limit <= |t|
    ensures from <= j <= limit
    ensures SpaceBetween(t, from, j)
    ensures j == limit || !IsSpace(t[j])
    decreases limit - from
  {
    if from < limit && IsSpace(t[from]) then SkipSpaces(t, from + 1, limit) else from
  }

  /** The start of the run of whitespace ending at `hi`, stopping at `lo`. */
  function TrimBack(t: string, lo: nat, hi: nat): (k: nat)
    requires lo <= hi <= |t|
    ensures lo <= k <= hi
    ensures SpaceBetween(t, k, hi)
    ensures k == lo || !IsSpace(t[k - 1])
    decreases hi - lo
  {
    if lo < hi && IsSpace(t[hi - 1]) then TrimBack(t, lo, hi - 1) else hi
  }

  /** `TrimBack` is the only start of a whitespace run ending at `hi` that cannot grow within `[lo, hi)`. */
  lemma {:induction false} TrimBackIsUnique(t: string, lo: nat, hi: nat, k: nat)
    requires lo <= k <= hi <= |t|
    requires SpaceBetween(t, k, hi)
    requires k == lo || !IsSpace(t[k - 1])
    ensures TrimBack(t, lo, hi) == k
  {
    var k' := TrimBack(t, lo, hi);
    if k' < k { assert false; }
    if k < k' { assert false; }
  }

  /** A search that starts inside a stretch free of `pat` finds what a search from its end finds. */
  lemma {:induction false} FindSkipsGap(t: string, pat: string, from: nat, to: nat)
    requires from <= to
    requires forall x :: from <= x < to ==> !OccursAt(t, pat, x)
    ensures Find(t, pat, from) == Find(t, pat, to)
    decreases (to as int) - from
  {
    if from < to {
      assert !OccursAt(t, pat, from);
      FindSkipsGap(t, pat, from + 1, to);
    }
  }

  /** `SkipSpaces` is the only end of a whitespace run from `from` that cannot grow within `[from, limit)`. */
  lemma {:induction false} SkipSpacesIsUnique(t: string, from: nat, limit: nat, j: nat)
    requires from <= j <= limit <= |t|
    requires SpaceBetween(t, from, j)
    requires j == limit || !IsSpace(t[j])
    ensures SkipSpaces(t, from, limit) == j
  {
    var j' := SkipSpaces(t, from, limit);
    if j' < j { assert false; }
    if j < j' { assert false; }
  }

  /** `Find` reports an occurrence when none lies between the start of the search and it. */
  lemma {:induction false} FindAt(t: string, pat: string, from: nat, i: nat)
    requires from <= i && OccursAt(t, pat, i)
    requires forall x :: from <= x < i ==> !OccursAt(t, pat, x)
    ensures Find(t, pat, from) == Some(i)
    decreases (i as int) - from
  {
    if from < i {
      assert !OccursAt(t, pat, from);
      FindAt(t, pat, from + 1, i);
    }
  }
}

=== FILE: wrappers.dfy ===
/** Failure-carrying wrappers shared by the rest of the model. */
module Wrappers {

  /** An optional value: Python's `None` or a present value. */
  datatype Option<+T> = None | Some(value: T)

  /** The outcome of an operation that can raise: a value, or the error it signals. */
  datatype Result<+T, +E> = Success(value: T) | Failure(error: E)

  /** Python's `d.get(key, default)`: the stored value when the key is present (even if it is null). */
  function Get<K, V>(d: map<K, V>, key: K, default: V): (r: V)
    ensures key in d ==> r == d[key]
    ensures key !in d ==> r == default
  {
    if key in d then d[key] else default
  }
}
